=== FILE: README.md ===
# Wavora auth forms and FAQ — a Dafny model

Wavora is a marketing site for a co-working brand. Most of it is layout and
animation. Three pieces carry logic, and this project models and proves
properties of those three:

- **Signup form** (`src/page/Auth/Register.jsx`). A four-field schema checks
  the name length, the e-mail's presence, its shape and that it is not an
  existing account, the password length, and that the confirmation is
  present. A whole-record rule reports a password mismatch on
  `confirmPassword`. Once the schema passes, the submission always succeeds
  after a simulated delay, and the whole form is then cleared.
- **Login form** (`src/page/Auth/Login.jsx`). A two-field schema checks the
  e-mail's presence and shape and the password length. It never looks at the
  account list. After the delay, the outcome is decided only by whether the
  submitted address is one of the two seeded accounts. The password is then
  reset. The banner is green when the message starts with the check mark and
  red otherwise.
- **FAQ section** (`src/components/Layout/Faq.jsx`). The five questions are
  filtered by case-insensitive search text and by category. Each category
  has a count. An accordion keeps at most one row open.

Modules:

| file | module | contents |
|---|---|---|
| `wrappers.dfy` | `Wrappers` | `Option`, standing for a value or JavaScript `null` |
| `text.dfy` | `Text` | `length` in UTF-16 code units, ASCII `toLowerCase`, `includes`, `startsWith` |
| `field_errors.dfy` | `FieldErrors` | the schema's ordered issue list and the form's error map, which keeps the first issue per field |
| `auth_common.dfy` | `AuthCommon` | the account list, the abstract e-mail check, the submission phase, banner colours |
| `register.dfy` | `Register` | signup schema, per-field rules, the submit controller |
| `login.dfy` | `Login` | login schema, outcome decision, banner, the submit controller |
| `faq.dfy` | `Faq` | FAQ data, filter, category counts, accordion |

How each form is modelled:

- **Validation.** A schema produces a list of issues in declaration order.
  Each issue names a field and carries a message. The form shows, for each
  field, the message of the first issue on it (`FieldErrors.Resolve`).
- **The per-field reading.** Each form's `Validate` gives this reading
  directly: the first failing rule of each field, in declaration order.
  `ValidateResolvesSchema` proves that it equals the resolved issue list.
- **Submission.** The controller has two phases: `Idle` and
  `Submitting(data)`. Pressing submit while `Idle` validates the record.
  With errors, it only shows them. Without errors, it clears the banner and
  puts the submission in flight with a snapshot of the values.
- **The delay.** The timed wait is one atomic `DelayElapsed` event, which
  settles the in-flight submission.
- **Typing.** Typing is an event too. It changes only the field typed into.

Assumptions:

- **E-mail shape.** The schema library's e-mail pattern is not part of this
  model. `AuthCommon.EmailCheck` is any predicate that rejects `""` and
  accepts the two seeded addresses. Every validator takes it as a parameter.
- **Every rule runs.** All string rules of a field are evaluated and listed.
  The whole-record password rule is evaluated even when field rules fail,
  because all four fields are strings. So a non-empty confirmation that
  differs from the password is reported even if, say, the name is too short.
  The properties about a record whose field rules all pass do not depend on
  this assumption.

Behaviour worth noting:

- **Signup clears everything.** After a successful signup, `reset()` clears
  all four fields (`src/page/Auth/Register.jsx:56`), and so does
  `Register.Settle`. After a login, the password is set to `""`
  (`src/page/Auth/Login.jsx:49`); what the e-mail field then holds is left
  open (see "## Left out").
- **Two e-mail messages.** A malformed address reads "Invalid email" on
  signup but "Invalid email format" on login.
- **Search and category are never set.** The FAQ component never changes
  its search text or category. The filter is modelled for arbitrary values
  anyway.

## Model

| member | source | states |
|---|---|---|
| `Text.Utf16Length` | src/page/Auth/Register.jsx:19-28 | the length a `.min(n)` rule compares lies between the character count and twice it, equals the character count when every character is in the Basic Multilingual Plane, and is 0 exactly for the empty string |
| `Text.Lower` | src/components/Layout/Faq.jsx:29 | `s.toLowerCase()` for ASCII: same length, each `A`–`Z` folded to its `a`–`z` letter, every other character kept |
| `Text.Includes` | src/components/Layout/Faq.jsx:29 | `s.includes(t)` holds exactly when `t` occurs as a slice of `s` at some position |
| `FieldErrors.ResolveFirstWins` | src/page/Auth/Register.jsx:45-50 | the error map has exactly the fields that have an issue, each with the message of its first issue |
| `FieldErrors.ResolveAppend` | src/page/Auth/Register.jsx:45-50 | issues listed later only fill in fields that earlier issues left without an error |
| `Register.ValidateResolvesSchema` | src/page/Auth/Register.jsx:17-33 | the per-field first-failing-rule reading equals the resolved issue list of the signup schema |
| `Register.NameRule` | src/page/Auth/Register.jsx:19 | the name is reported as "Name is required" exactly when it is shorter than 3 characters |
| `Register.EmailRule` | src/page/Auth/Register.jsx:20-26 | presence, then shape, then not an existing account: an empty address gets "Email is required", a malformed one "Invalid email", an existing one "Email already exists. Please login.", any other none |
| `Register.PasswordRule` | src/page/Auth/Register.jsx:27 | the password is reported exactly when it is shorter than 6 characters, with the length message |
| `Register.ConfirmRule` | src/page/Auth/Register.jsx:28-33 | an empty confirmation gets "Please confirm your password"; a non-empty one that differs gets "Passwords do not match"; it has no error exactly when it is non-empty and equal |
| `Register.ValidateEmptyIffValid` | src/page/Auth/Register.jsx:17-33 | only the four fields can carry errors, and there are none exactly when every rule passes |
| `Register.MismatchOnlyOnConfirm` | src/page/Auth/Register.jsx:30-33 | the mismatch message is only ever keyed on `confirmPassword`, and only when the passwords differ |
| `Register.OnlyMismatch` | src/page/Auth/Register.jsx:30-33 | when every field rule passes but the passwords differ, the whole error map is the mismatch on `confirmPassword` |
| `Register.ShortNameAndTakenEmail` | src/page/Auth/Register.jsx:17-29 | a short name and a seeded address are reported together in one map, with no password errors |
| `Register.Edit` | src/page/Auth/Register.jsx:142-200 | typing changes the typed field only; errors, banner and phase are untouched |
| `Register.Submit` | src/page/Auth/Register.jsx:52-54 | disabled while in flight; an invalid record gets exactly the schema's (non-empty) error map shown, with banner and values untouched; a valid one clears the banner and goes in flight with its values |
| `Register.RejectedSubmission` | src/page/Auth/Register.jsx:135 | a submission that fails validation leaves values, banner and phase as they were and shows the schema's non-empty error map |
| `Register.Settle` | src/page/Auth/Register.jsx:55-56 | after the delay the banner is the success message whatever was submitted, and every field is empty |
| `Register.StepKeepsInv` | src/page/Auth/Register.jsx:52-57 | every event keeps the invariant that an in-flight submission has no banner and no errors (typing does not re-validate in this model) and carries valid values; the banner changes only when a submission starts (to empty) or settles (to success) |
| `Register.ValidSubmissionSucceeds` | src/page/Auth/Register.jsx:52-57 | a valid submission from idle clears the banner, then ends with the green success banner and a blank form |
| `Login.ValidateResolvesSchema` | src/page/Auth/Login.jsx:17-20 | the per-field first-failing-rule reading equals the resolved issue list of the login schema |
| `Login.EmailRule` | src/page/Auth/Login.jsx:18 | an empty address gets "Email is required", a non-empty malformed one "Invalid email format", a well-formed one no error |
| `Login.PasswordRule` | src/page/Auth/Login.jsx:19 | the password is reported exactly when it is shorter than 6 characters |
| `Login.ValidateEmptyIffValid` | src/page/Auth/Login.jsx:17-20 | only the two fields carry errors; there are none exactly for a present, well-formed address and a password of 6 or more, whether or not the account exists |
| `Login.ValidateIgnoresAccounts` | src/page/Auth/Login.jsx:17-20 | swapping one well-formed address for another never changes the errors, so the account list plays no part |
| `Login.BannerFollowsOutcome` | src/page/Auth/Login.jsx:197 | both outcome messages are shown, and the banner is green exactly for the success message |
| `Login.Edit` | src/page/Auth/Login.jsx:134-153 | typing changes the typed field only; errors, banner and phase are untouched |
| `Login.Submit` | src/page/Auth/Login.jsx:39-41 | disabled while in flight; an invalid record gets exactly the schema's (non-empty) error map shown, with banner and values untouched; a valid one clears the banner and goes in flight with its values |
| `Login.Settle` | src/page/Auth/Login.jsx:43-49 | after the delay the banner is the success message exactly when the submitted address is an existing account, otherwise the not-found message, and the password is empty |
| `Login.StepKeepsInv` | src/page/Auth/Login.jsx:39-50 | every event keeps the invariant that an in-flight submission has no banner and no errors (typing does not re-validate in this model) and carries valid values; the banner changes only when a submission starts (to empty) or settles (to one of the two outcomes) |
| `Login.EditsKeepSubmission` | src/page/Auth/Login.jsx:39-47 | typing during the delay changes neither the phase with its submitted values, nor the banner, nor the errors (typing does not re-validate in this model) |
| `Login.ValidSubmission` | src/page/Auth/Login.jsx:39-50 | a valid submission, with any typing during the delay, is green with the success message if and only if the submitted address is an existing account, red with the not-found message otherwise, and leaves the password empty |
| `Login.RejectedSubmission` | src/page/Auth/Login.jsx:125 | a submission that fails validation leaves values, banner and phase as they were and shows a non-empty error map |
| `Login.SeededAndFreshAccounts` | src/page/Auth/Login.jsx:15 | a seeded address with "abcdef" validates and logs in; a new well-formed address validates and is not found |
| `Faq.CountIn` | src/components/Layout/Faq.jsx:14-17 | a category count is at most the list length, and 0 exactly when no entry has that category |
| `Faq.Filter` | src/components/Layout/Faq.jsx:28-31 | the listed entries are an order-preserving subsequence of the list, all matching, containing every matching entry, as many as there are matching entries |
| `Faq.EmptySearchSelectsCategory` | src/components/Layout/Faq.jsx:28-31 | with no search text the filter lists all entries for "all" and the category's entries otherwise |
| `Faq.EmptySearchKeepsAll` | src/components/Layout/Faq.jsx:28-31 | with no search text and "all", the filter returns the list unchanged |
| `Faq.InitialFilterShowsAll` | src/components/Layout/Faq.jsx:22-31 | in the initial state the section lists all five questions, in order |
| `Faq.CountsPartition` | src/components/Layout/Faq.jsx:12-18 | for a list filed only under the four categories, the four counts add up to its length |
| `Faq.CountIsListedWithoutSearch` | src/components/Layout/Faq.jsx:14-17 | a category's count is the number of entries that category lists with no search text |
| `Faq.CategoryCountValues` | src/components/Layout/Faq.jsx:14-17 | the general, booking, pricing and amenities counts are 1, 1, 2 and 1 |
| `Faq.AllCountIsListed` | src/components/Layout/Faq.jsx:13 | the "all" count is 5, the number of questions the initial filter lists |
| `Faq.AllCountIsSum` | src/components/Layout/Faq.jsx:12-18 | the "all" count is the sum of the four category counts |
| `Faq.Toggle` | src/components/Layout/Faq.jsx:63 | clicking the open row closes it; clicking any other row opens exactly that row |
| `Faq.ToggleTwice` | src/components/Layout/Faq.jsx:63 | two clicks on a row restore the accordion when that row or no row was open, and leave all closed when another row was open |
| `Faq.Click` | src/components/Layout/Faq.jsx:63 | after a click the open rows are exactly the clicked one if it was closed, none otherwise; search and category are unchanged |
| `Faq.AtMostOneOpen` | src/components/Layout/Faq.jsx:86 | no two different rows are open at once |
| `Faq.OpenEntry` | src/components/Layout/Faq.jsx:58-90 | the answer on show is the one at the open position of the filtered list (so a listed, matching entry), and one is shown exactly when that position is a listed row |
| `Faq.InitialView` | src/components/Layout/Faq.jsx:21 | initially the first question is open |
| `Faq.OpenPositionFollowsFilter` | src/components/Layout/Faq.jsx:58-63 | the open index is a position in the filtered list: position 0 is the third question under "pricing" but the first under "all" |

## Left out

- Markup, styling, animation, the password-visibility toggles, the social
  login buttons and the links: presentation only.
- The two timed delays (1200 ms on signup, 900 ms on login): each is the
  single atomic `DelayElapsed` event, so time and interleaving with other
  timers are not modelled.
- Register.Edit: keeps the errors unchanged, whereas the form library
  re-validates the typed field on every change once the form has been
  submitted, successfully or not; that re-validation lives in the library,
  not in the program's own code.
- Login.Edit: the same gap as `Register.Edit`, for the login form.
- Register.StepKeepsInv: its "no errors while a submission is in flight"
  clause rests on the `Register.Edit` simplification. In the program,
  typing during the delay of any submission after the first re-validates
  the typed field and can show its error while the submission is in flight.
- Login.StepKeepsInv: the same gap as `Register.StepKeepsInv`, for the login
  form. For example, on a second login, typing "abc" into the password
  during the delay shows the password-length error in the program.
- Login.EditsKeepSubmission: its "nor the errors" clause rests on the
  `Login.Edit` simplification, for the same reason. The phase, the submitted
  values and the banner are kept in the program too.
- How the form library works inside: whether `isSubmitting` also blocks
  re-entry beyond the disabled button, and what `reset({ password: "" })`
  leaves in the login e-mail field. That last value is the `resetEmail` parameter of
  `Login.Settle`, and nothing is claimed about it.
- The schema library's e-mail pattern: kept abstract, as described above.
- `toLowerCase` on non-ASCII letters: only `A`–`Z` are folded.
- The category badge's name lookup and the FAQ icons: rendering only.
- Routing, layout shells, home page, footer, loading screen, theme context
  and the "other" page: no logic beyond rendering or a single boolean
  negation.

=== FILE: auth_common.dfy ===
/** What the signup and login forms share: the fixed list of existing
    accounts, the shape check for e-mail addresses, the two phases of a
    submission and the colours of the outcome banner. */
module AuthCommon {

  /** The fake account directory both forms consult. It never changes. */
  const ExistingUsers: seq<string> := ["test@example.com", "demo@wavora.com"]

  predicate IsExisting(email: string) {
    email in ExistingUsers
  }

  /** The schema library's e-mail shape check. Its pattern is not part of this
      model; all that is assumed is that it rejects the empty string and
      accepts the two seeded addresses. */
  type EmailCheck = f: string -> bool | !f("") && f(ExistingUsers[0]) && f(ExistingUsers[1])
    witness IsExisting

  /** Every existing account passes any e-mail shape check, and the empty
      string is no account. */
  lemma ExistingIsWellShaped(emailOk: EmailCheck, email: string)
    requires IsExisting(email)
    ensures emailOk(email)
    ensures email != ""
  {
    assert email == ExistingUsers[0] || email == ExistingUsers[1];
  }

  /** A form either waits for input or has a submission in flight; the
      in-flight submission carries the values it was started with. */
  datatype Phase<R> = Idle | Submitting(data: R)

  datatype Colour = Green | Red
}

=== FILE: faq.dfy ===
/** The FAQ section: a constant list of questions, per-category counts, a
    filter by search text and category, and an accordion in which at most one
    row of the filtered list is open. */
module Faq {
  import opened Text
  import opened Wrappers

  datatype Entry = Entry(question: string, answer: string, category: string)

  const Faqs: seq<Entry> := [
    Entry("Do I need to book in advance?",
          "Yes. We recommend booking in advance to ensure availability, especially for our premium spaces and meeting rooms which tend to get booked quickly.",
          "booking"),
    Entry("What are the opening hours?",
          "Our spaces are accessible 24/7 for members with keycard access. Staffed hours are from 9:00 AM to 5:00 PM (WAT) on weekdays, with weekend access available for premium members.",
          "general"),
    Entry("Do you offer discounts for teams or long-term members?",
          "Absolutely! We provide customized enterprise pricing for teams of 5+ and offer significant discounts for annual commitments. Contact our sales team for a tailored quote.",
          "pricing"),
    Entry("Is your space pet-friendly?",
          "While we love pets, we generally do not permit them in our main workspaces to ensure the comfort and safety of all members. However, we have designated pet-friendly zones in some locations.",
          "amenities"),
    Entry("Can I upgrade or downgrade my plan later?",
          "Yes, you can upgrade or downgrade your plan at any time without disruption. Changes take effect at the start of your next billing cycle with no hidden fees.",
          "pricing")
  ]

  /** The category selection that shows every entry. */
  const All := "all"

  /** The four real categories, in the order the section lists them. */
  const CategoryIds: seq<string> := ["general", "booking", "pricing", "amenities"]

  datatype Category = Category(id: string, name: string, count: nat)

  /** The number of entries filed under category `c`. */
  function CountIn(fs: seq<Entry>, c: string): (n: nat)
    ensures n <= |fs|
    ensures n == 0 <==> forall i :: 0 <= i < |fs| ==> fs[i].category != c
  {
    if fs == [] then 0
    else (if fs[0].category == c then 1 else 0) + CountIn(fs[1..], c)
  }

  const Categories: seq<Category> := [
    Category(All, "All Questions", |Faqs|),
    Category("general", "General", CountIn(Faqs, "general")),
    Category("booking", "Booking", CountIn(Faqs, "booking")),
    Category("pricing", "Pricing", CountIn(Faqs, "pricing")),
    Category("amenities", "Amenities", CountIn(Faqs, "amenities"))
  ]

  /** An entry is listed when its question or its answer contains the search
      text, ignoring case, and it belongs to the selected category (any, for
      "all"). */
  predicate Matches(f: Entry, search: string, category: string) {
    && (Includes(Lower(f.question), Lower(search)) || Includes(Lower(f.answer), Lower(search)))
    && (category == All || f.category == category)
  }

  /** `xs` is `ys` with some entries left out and the rest kept in order. */
  predicate Subsequence<T(==)>(xs: seq<T>, ys: seq<T>)
    decreases |ys|
  {
    || xs == []
    || (ys != [] && ((xs[0] == ys[0] && Subsequence(xs[1..], ys[1..])) || Subsequence(xs, ys[1..])))
  }

  /** The number of entries the filter keeps. */
  function MatchCount(fs: seq<Entry>, search: string, category: string): nat {
    if fs == [] then 0
    else (if Matches(fs[0], search, category) then 1 else 0) + MatchCount(fs[1..], search, category)
  }

  /** The listed entries: exactly the matching ones, each as often as it
      occurs, in their original order. */
  function Filter(fs: seq<Entry>, search: string, category: string): (r: seq<Entry>)
    ensures Subsequence(r, fs)
    ensures forall i :: 0 <= i < |r| ==> Matches(r[i], search, category)
    ensures forall f :: f in fs && Matches(f, search, category) ==> f in r
    ensures |r| == MatchCount(fs, search, category)
  {
    if fs == [] then []
    else
      var rest := Filter(fs[1..], search, category);
      if Matches(fs[0], search, category) then
        assert ([fs[0]] + rest)[1..] == rest;
        [fs[0]] + rest
      else
        assert Subsequence(rest, fs);
        rest
  }

  /** Every string contains the empty search text, so with no search text
      the filter only selects by category. */
  lemma {:induction false} EmptySearchSelectsCategory(fs: seq<Entry>, category: string)
    ensures MatchCount(fs, "", category) == if category == All then |fs| else CountIn(fs, category)
  {
    if fs != [] {
      EmptySearchSelectsCategory(fs[1..], category);
      IncludesEmpty(Lower(fs[0].question));
    }
  }

  /** With no search text and every category selected, the filter keeps the
      whole list. */
  lemma {:induction false} EmptySearchKeepsAll(fs: seq<Entry>)
    ensures Filter(fs, "", All) == fs
  {
    if fs != [] {
      EmptySearchKeepsAll(fs[1..]);
      IncludesEmpty(Lower(fs[0].question));
    }
  }

  /** In its initial state (no search text, all categories) the section
      lists all five entries. */
  lemma InitialFilterShowsAll()
    ensures Filter(Faqs, "", All) == Faqs
    ensures |Filter(Faqs, "", All)| == 5
  {
    EmptySearchKeepsAll(Faqs);
  }

  /** The counts of the four categories add up to the size of any list whose
      entries all belong to one of them. */
  lemma {:induction false} CountsPartition(fs: seq<Entry>)
    requires forall i :: 0 <= i < |fs| ==> fs[i].category in CategoryIds
    ensures CountIn(fs, "general") + CountIn(fs, "booking") + CountIn(fs, "pricing") + CountIn(fs, "amenities") == |fs|
  {
    if fs != [] {
      CountsPartition(fs[1..]);
    }
  }

  /** A category's count is the number of entries that category lists when
      there is no search text. */
  lemma CountIsListedWithoutSearch(fs: seq<Entry>, c: string)
    requires c != All
    ensures CountIn(fs, c) == |Filter(fs, "", c)|
  {
    EmptySearchSelectsCategory(fs, c);
  }

  /** Each real category's count is the number of entries filed under it:
      1, 1, 2 and 1. */
  lemma CategoryCountValues()
    ensures Categories[1].id == "general" && Categories[1].count == CountIn(Faqs, "general") == 1
    ensures Categories[2].id == "booking" && Categories[2].count == CountIn(Faqs, "booking") == 1
    ensures Categories[3].id == "pricing" && Categories[3].count == CountIn(Faqs, "pricing") == 2
    ensures Categories[4].id == "amenities" && Categories[4].count == CountIn(Faqs, "amenities") == 1
  {
  }

  /** The "all" count is the whole list, which the initial filter shows. */
  lemma AllCountIsListed()
    ensures Categories[0].count == |Faqs| == |Filter(Faqs, "", All)| == 5
  {
    InitialFilterShowsAll();
  }

  /** The "all" count is the sum of the four category counts. */
  lemma AllCountIsSum()
    ensures Categories[0].count == Categories[1].count + Categories[2].count + Categories[3].count + Categories[4].count
  {
    CountsPartition(Faqs);
  }

  /** Clicking row `idx`: an open row closes, any other row opens and the
      previously open one closes. */
  function Toggle(open: Option<nat>, idx: nat): (open': Option<nat>)
    ensures open'.None? <==> open == Some(idx)
    ensures open'.Some? ==> open'.value == idx
  {
    if open == Some(idx) then None else Some(idx)
  }

  /** Clicking the same row twice restores the accordion when that row was
      open or no row was; when another row was open, that row stays closed. */
  lemma ToggleTwice(open: Option<nat>, idx: nat)
    ensures open == Some(idx) || open == None ==> Toggle(Toggle(open, idx), idx) == open
    ensures open.Some? && open.value != idx ==> Toggle(Toggle(open, idx), idx) == None
  {
  }

  /** The section's state. `openIndex` is a position in the filtered list,
      not in the full list. */
  datatype View = View(search: string, category: string, openIndex: Option<nat>)

  const Initial := View("", All, Some(0))

  function Listed(v: View): seq<Entry> {
    Filter(Faqs, v.search, v.category)
  }

  predicate IsOpen(v: View, row: nat) {
    v.openIndex == Some(row)
  }

  /** The entry whose answer is on show: the one at the open position of the
      filtered list, if that position is a listed row. */
  function OpenEntry(v: View): (e: Option<Entry>)
    ensures e.Some? <==> v.openIndex.Some? && v.openIndex.value < |Listed(v)|
    ensures e.Some? ==> e.value == Listed(v)[v.openIndex.value]
    ensures e.Some? ==> e.value in Listed(v) && Matches(e.value, v.search, v.category)
  {
    match v.openIndex
    case Some(i) => if i < |Listed(v)| then Some(Listed(v)[i]) else None
    case None => None
  }

  /** Clicking a listed row. */
  function Click(v: View, row: nat): (v': View)
    requires row < |Listed(v)|
    ensures forall j: nat :: IsOpen(v', j) <==> j == row && !IsOpen(v, row)
    ensures v'.search == v.search && v'.category == v.category
  {
    v.(openIndex := Toggle(v.openIndex, row))
  }

  /** At most one row is ever open. */
  lemma AtMostOneOpen(v: View, i: nat, j: nat)
    requires IsOpen(v, i) && IsOpen(v, j)
    ensures i == j
  {
  }

  /** Initially the first question is open. */
  lemma InitialView()
    ensures OpenEntry(Initial) == Some(Faqs[0])
  {
    InitialFilterShowsAll();
  }

  /** Because the open position refers to the filtered list, the same
      position opens a different question once the category changes: with
      "pricing" selected, position 0 is the third question, whereas with all
      categories it is the first. */
  lemma OpenPositionFollowsFilter()
    ensures OpenEntry(View("", "pricing", Some(0))) == Some(Faqs[2])
    ensures OpenEntry(View("", All, Some(0))) != OpenEntry(View("", "pricing", Some(0)))
  {
    var fs := Faqs;
    IncludesEmpty(Lower(fs[2].question));
    FilterFirst(fs, "", "pricing", 2);
    InitialView();
  }

  /** When the first `k` entries do not match and the next one does, the
      filter lists that one first. */
  lemma {:induction false} FilterFirst(fs: seq<Entry>, search: string, category: string, k: nat)
    requires k < |fs| && Matches(fs[k], search, category)
    requires forall j :: 0 <= j < k ==> !Matches(fs[j], search, category)
    ensures Filter(fs, search, category) != [] && Filter(fs, search, category)[0] == fs[k]
    decreases k
  {
    if k > 0 {
      assert forall j :: 0 <= j < k - 1 ==> fs[1..][j] == fs[j + 1];
      FilterFirst(fs[1..], search, category, k - 1);
    }
  }

}

=== FILE: field_errors.dfy ===
/** How a schema's failures reach the form: the schema lists its issues in
    declaration order, each tagged with the field it is about, and the form
    keeps, for every field, the message of the first issue on it. A field with
    no entry in the resulting map is valid. */
module FieldErrors {

  datatype Issue = Issue(path: string, message: string)

  type ErrorMap = map<string, string>

  /** A single issue on `path` when `fails` holds, nothing otherwise: one
      check of a schema. */
  function Check(fails: bool, path: string, message: string): (issues: seq<Issue>)
    ensures |issues| <= 1
    ensures issues != [] <==> fails
    ensures forall i :: 0 <= i < |issues| ==> issues[i] == Issue(path, message)
  {
    if fails then [Issue(path, message)] else []
  }

  /** `issues[k]` is the first issue on its path. */
  predicate FirstOnPath(issues: seq<Issue>, k: int) {
    0 <= k < |issues| && forall j :: 0 <= j < k ==> issues[j].path != issues[k].path
  }

  /** The error map the form shows for a list of issues: the resolver walks
      the list and keeps, per field, the first message it meets. */
  function Resolve(issues: seq<Issue>): ErrorMap {
    if issues == [] then map[]
    else Resolve(issues[1..])[issues[0].path := issues[0].message]
  }

  /** The error map the form shows for a list of issues has exactly the
      fields that have an issue, each with the message of its first issue. */
  lemma {:induction false} ResolveFirstWins(issues: seq<Issue>)
    ensures forall p :: p in Resolve(issues) <==> exists k :: 0 <= k < |issues| && issues[k].path == p
    ensures forall k :: FirstOnPath(issues, k) ==> Resolve(issues)[issues[k].path] == issues[k].message
  {
    if issues != [] {
      ResolveFirstWins(issues[1..]);
      assert forall k :: 1 <= k < |issues| ==> issues[1..][k - 1] == issues[k];
      assert forall k :: FirstOnPath(issues, k) && k >= 1 ==> FirstOnPath(issues[1..], k - 1);
    }
  }

  /** Issues listed later only fill in the fields earlier ones left empty. */
  lemma {:induction false} ResolveAppend(a: seq<Issue>, b: seq<Issue>)
    ensures Resolve(a + b) == Resolve(b) + Resolve(a)
  {
    if a == [] {
      assert a + b == b;
    } else {
      assert (a + b)[1..] == a[1..] + b;
      ResolveAppend(a[1..], b);
      var head := a[0];
      calc {
        Resolve(a + b);
        Resolve(a[1..] + b)[head.path := head.message];
        (Resolve(b) + Resolve(a[1..]))[head.path := head.message];
        Resolve(b) + Resolve(a[1..])[head.path := head.message];
        Resolve(b) + Resolve(a);
      }
    }
  }

  /** The same for a list made of four consecutive parts. */
  lemma ResolveAppend4(a: seq<Issue>, b: seq<Issue>, c: seq<Issue>, d: seq<Issue>)
    ensures Resolve(a + b + c + d) == Resolve(d) + Resolve(c) + Resolve(b) + Resolve(a)
  {
    ResolveAppend(a + b + c, d);
    ResolveAppend(a + b, c);
    ResolveAppend(a, b);
    var ra, rb, rc, rd := Resolve(a), Resolve(b), Resolve(c), Resolve(d);
    UnionAssoc(rd, rc, rb + ra);
  }

  /** Issues on different fields do not interfere: when the four parts of a
      list resolve to errors on disjoint fields, the whole list resolves to
      their union. */
  lemma ResolveDisjoint4(a: seq<Issue>, b: seq<Issue>, c: seq<Issue>, d: seq<Issue>)
    requires Resolve(a).Keys !! Resolve(b).Keys && Resolve(a).Keys !! Resolve(c).Keys
    requires Resolve(a).Keys !! Resolve(d).Keys && Resolve(b).Keys !! Resolve(c).Keys
    requires Resolve(b).Keys !! Resolve(d).Keys && Resolve(c).Keys !! Resolve(d).Keys
    ensures Resolve(a + b + c + d) == Resolve(a) + Resolve(b) + Resolve(c) + Resolve(d)
  {
    ResolveAppend4(a, b, c, d);
    UnionReverse(Resolve(a), Resolve(b), Resolve(c), Resolve(d));
  }

  /** Merging maps with disjoint keys does not depend on the order. */
  lemma UnionReverse<K, V>(a: map<K, V>, b: map<K, V>, c: map<K, V>, d: map<K, V>)
    requires a.Keys !! b.Keys && a.Keys !! c.Keys && a.Keys !! d.Keys
    requires b.Keys !! c.Keys && b.Keys !! d.Keys && c.Keys !! d.Keys
    ensures d + c + b + a == a + b + c + d
  {
  }

  lemma UnionAssoc<K, V>(x: map<K, V>, y: map<K, V>, z: map<K, V>)
    ensures x + (y + z) == x + y + z
  {
  }

  /** A single check resolves to at most one error. */
  lemma ResolveCheck(fails: bool, path: string, message: string)
    ensures Resolve(Check(fails, path, message)) == if fails then map[path := message] else map[]
  {
    if fails {
      assert Check(fails, path, message)[1..] == [];
    }
  }

  /** Two checks on one field: the first failing one is shown. */
  lemma ResolveChecks2(f1: bool, f2: bool, p: string, m1: string, m2: string)
    ensures Resolve(Check(f1, p, m1) + Check(f2, p, m2))
         == if f1 then map[p := m1] else if f2 then map[p := m2] else map[]
  {
    ResolveAppend(Check(f1, p, m1), Check(f2, p, m2));
    ResolveCheck(f1, p, m1);
    ResolveCheck(f2, p, m2);
  }

  /** Three checks on one field: the first failing one is shown. */
  lemma ResolveChecks3(f1: bool, f2: bool, f3: bool, p: string, m1: string, m2: string, m3: string)
    ensures Resolve(Check(f1, p, m1) + Check(f2, p, m2) + Check(f3, p, m3))
         == if f1 then map[p := m1] else if f2 then map[p := m2] else if f3 then map[p := m3] else map[]
  {
    var a, b, c := Check(f1, p, m1), Check(f2, p, m2), Check(f3, p, m3);
    ResolveAppend(a + b, c);
    ResolveAppend(a, b);
    ResolveCheck(f1, p, m1);
    ResolveCheck(f2, p, m2);
    ResolveCheck(f3, p, m3);
  }

  /** The form shows `message` on the field `key`. */
  predicate Shows(errs: ErrorMap, key: string, message: string) {
    key in errs && errs[key] == message
  }
}

=== FILE: login.dfy ===
/** The login form: a two-field schema that never consults the account list,
    and a submission whose outcome, decided after the simulated delay, is
    whether the submitted e-mail belongs to an existing account. */
module Login {
  import opened Text
  import opened FieldErrors
  import opened AuthCommon
  import opened Wrappers

  datatype LoginRecord = LoginRecord(email: string, password: string)

  datatype Field = Email | Password

  function Get(r: LoginRecord, f: Field): string {
    match f
    case Email => r.email
    case Password => r.password
  }

  /** Typing `value` into field `f`. */
  function Set(r: LoginRecord, f: Field, value: string): (r': LoginRecord)
    ensures Get(r', f) == value
    ensures forall g :: g != f ==> Get(r', g) == Get(r, g)
  {
    match f
    case Email => r.(email := value)
    case Password => r.(password := value)
  }

  const EmailRequired := "Email is required"
  const InvalidEmailFormat := "Invalid email format"
  const PasswordTooShort := "Password must be at least 6 characters"
  const LoginSuccess := "\U{2705} Login successful! Redirecting..."
  const AccountNotFound := "\U{274C} Account not found. Please sign up."
  const SuccessMark := "\U{2705}"

  /** The issues the login schema reports, in declaration order. */
  function SchemaIssues(r: LoginRecord, emailOk: EmailCheck): seq<Issue> {
    Check(Utf16Length(r.email) < 1, "email", EmailRequired)
    + Check(!emailOk(r.email), "email", InvalidEmailFormat)
    + Check(Utf16Length(r.password) < 6, "password", PasswordTooShort)
  }

  /** The error each field shows: its rules in declaration order, the first
      failing one wins. */
  function EmailError(r: LoginRecord, emailOk: EmailCheck): ErrorMap {
    if r.email == "" then map["email" := EmailRequired]
    else if !emailOk(r.email) then map["email" := InvalidEmailFormat]
    else map[]
  }

  function PasswordError(r: LoginRecord): ErrorMap {
    if Utf16Length(r.password) < 6 then map["password" := PasswordTooShort] else map[]
  }

  /** The errors the form shows after validating `r`. */
  function Validate(r: LoginRecord, emailOk: EmailCheck): ErrorMap {
    EmailError(r, emailOk) + PasswordError(r)
  }

  /** The per-field reading is what the schema's issue list resolves to when
      the form keeps the first issue per field. */
  lemma ValidateResolvesSchema(r: LoginRecord, emailOk: EmailCheck)
    ensures Validate(r, emailOk) == Resolve(SchemaIssues(r, emailOk))
  {
    var a := Check(Utf16Length(r.email) < 1, "email", EmailRequired);
    var b := Check(!emailOk(r.email), "email", InvalidEmailFormat);
    var c := Check(Utf16Length(r.password) < 6, "password", PasswordTooShort);
    ResolveAppend(a + b, c);
    ResolveChecks2(Utf16Length(r.email) < 1, !emailOk(r.email), "email", EmailRequired, InvalidEmailFormat);
    ResolveCheck(Utf16Length(r.password) < 6, "password", PasswordTooShort);
    var e, p := EmailError(r, emailOk), PasswordError(r);
    assert Resolve(a + b) == e;
    assert p + e == e + p;
  }

  /** The record passes the login schema. The account list plays no part. */
  predicate Valid(r: LoginRecord, emailOk: EmailCheck) {
    r.email != "" && emailOk(r.email) && Utf16Length(r.password) >= 6
  }

  /** Presence before shape: an empty address is reported as missing, a
      non-empty malformed one as malformed, a well-formed one not at all. */
  lemma EmailRule(r: LoginRecord, emailOk: EmailCheck)
    ensures r.email == "" ==> Shows(Validate(r, emailOk), "email", EmailRequired)
    ensures r.email != "" && !emailOk(r.email) ==> Shows(Validate(r, emailOk), "email", InvalidEmailFormat)
    ensures "email" !in Validate(r, emailOk) <==> r.email != "" && emailOk(r.email)
  {
  }

  /** A password shorter than six characters is reported, and only then. */
  lemma PasswordRule(r: LoginRecord, emailOk: EmailCheck)
    ensures "password" in Validate(r, emailOk) <==> Utf16Length(r.password) < 6
    ensures "password" in Validate(r, emailOk) ==> Validate(r, emailOk)["password"] == PasswordTooShort
  {
  }

  /** Only the two fields carry errors, and there are none exactly when the
      record passes; whether the account exists does not matter. */
  lemma ValidateEmptyIffValid(r: LoginRecord, emailOk: EmailCheck)
    ensures Validate(r, emailOk).Keys <= {"email", "password"}
    ensures Validate(r, emailOk) == map[] <==> Valid(r, emailOk)
  {
    if !Valid(r, emailOk) {
      if r.email == "" || !emailOk(r.email) {
        assert "email" in Validate(r, emailOk);
      } else {
        assert "password" in Validate(r, emailOk);
      }
    }
  }

  /** Validation never looks at the account list: two records that differ
      only in which well-formed address they carry get the same errors. */
  lemma ValidateIgnoresAccounts(r: LoginRecord, email: string, emailOk: EmailCheck)
    requires r.email != "" && emailOk(r.email) && email != "" && emailOk(email)
    ensures Validate(r, emailOk) == Validate(r.(email := email), emailOk)
  {
  }

  /** Which way a submission that passed validation ends. */
  datatype Outcome = Success | NotFound

  /** The outcome is decided by membership of the submitted address alone. */
  function Decide(email: string): Outcome {
    if IsExisting(email) then Success else NotFound
  }

  function OutcomeMessage(o: Outcome): string {
    match o
    case Success => LoginSuccess
    case NotFound => AccountNotFound
  }

  /** The outcome banner: hidden while there is no message, green when the
      message starts with the check mark, red otherwise. */
  function Banner(message: string): Option<Colour> {
    if message == "" then None
    else if StartsWith(message, SuccessMark) then Some(Green)
    else Some(Red)
  }

  /** Both outcome messages are shown, and the banner is green for exactly
      the successful one. */
  lemma BannerFollowsOutcome(o: Outcome)
    ensures Banner(OutcomeMessage(o)).Some?
    ensures Banner(OutcomeMessage(o)) == Some(Green) <==> o == Success
  {
    assert StartsWith(LoginSuccess, SuccessMark) by {
      assert LoginSuccess[..|SuccessMark|] == SuccessMark;
    }
    assert !StartsWith(AccountNotFound, SuccessMark) by {
      assert AccountNotFound[0] != SuccessMark[0];
    }
  }

  /** The login form's state: the field values, the errors on show, the
      outcome banner's text and the submission phase. */
  datatype LoginForm = LoginForm(values: LoginRecord, errors: ErrorMap, message: string, phase: Phase<LoginRecord>)

  const Initial := LoginForm(LoginRecord("", ""), map[], "", Idle)

  /** What can happen to the form: the user types into a field, presses the
      submit button, or the simulated network delay elapses. When the delay
      elapses the form library resets the password; what it leaves in the
      e-mail field is outside this model and is given as `resetEmail`. */
  datatype Event = Type(field: Field, value: string) | Press | DelayElapsed(resetEmail: string)

  /** The user types into a field; nothing but that field's value changes. */
  function Edit(form: LoginForm, f: Field, value: string): (form': LoginForm)
    ensures Get(form'.values, f) == value
    ensures forall g :: g != f ==> Get(form'.values, g) == Get(form.values, g)
    ensures form'.errors == form.errors && form'.message == form.message && form'.phase == form.phase
  {
    form.(values := Set(form.values, f, value))
  }

  /** Pressing submit. The button is disabled while a submission is in flight.
      Otherwise the record is validated: with errors, they are shown and
      nothing else changes (in particular the account list is not consulted
      and the banner keeps its text); without, the banner is cleared and the
      submission goes in flight with the current values. */
  function Submit(form: LoginForm, emailOk: EmailCheck): (form': LoginForm)
    ensures form.phase.Submitting? ==> form' == form
    ensures form.phase.Idle? && !Valid(form.values, emailOk) ==>
              form'.errors == Validate(form.values, emailOk) != map[] && form'.phase.Idle?
              && form'.values == form.values && form'.message == form.message
    ensures form.phase.Idle? && Valid(form.values, emailOk) ==>
              form'.errors == map[] && form'.message == ""
              && form'.phase == Submitting(form.values) && form'.values == form.values
  {
    if form.phase.Submitting? then form
    else
      ValidateEmptyIffValid(form.values, emailOk);
      var errs := Validate(form.values, emailOk);
      if errs != map[] then form.(errors := errs)
      else form.(errors := map[], message := "", phase := Submitting(form.values))
  }

  /** The delay elapses: the banner reports whether the address submitted
      (not whatever the field holds now) belongs to an account, and the
      password field is emptied. */
  function Settle(form: LoginForm, resetEmail: string): (form': LoginForm)
    requires form.phase.Submitting?
    ensures form'.phase.Idle? && form'.errors == map[]
    ensures form'.message == LoginSuccess <==> IsExisting(form.phase.data.email)
    ensures form'.message == AccountNotFound <==> !IsExisting(form.phase.data.email)
    ensures form'.values.password == ""
  {
    LoginForm(LoginRecord(resetEmail, ""), map[], OutcomeMessage(Decide(form.phase.data.email)), Idle)
  }

  function Step(form: LoginForm, ev: Event, emailOk: EmailCheck): LoginForm {
    match ev
    case Type(f, v) => Edit(form, f, v)
    case Press => Submit(form, emailOk)
    case DelayElapsed(e) => if form.phase.Submitting? then Settle(form, e) else form
  }

  /** While a submission is in flight no banner and no error is on show, and
      the values it carries pass the schema. */
  predicate Inv(form: LoginForm, emailOk: EmailCheck) {
    form.phase.Submitting? ==>
      form.message == "" && form.errors == map[] && Valid(form.phase.data, emailOk)
  }

  lemma InitialInv(emailOk: EmailCheck)
    ensures Inv(Initial, emailOk)
    ensures Initial.phase.Idle? && Banner(Initial.message).None?
  {
  }

  /** Every step keeps the invariant. The banner text changes only when a
      valid submission starts (it is cleared) or when its delay elapses (it
      becomes one of the two outcome messages). */
  lemma StepKeepsInv(form: LoginForm, ev: Event, emailOk: EmailCheck)
    requires Inv(form, emailOk)
    ensures Inv(Step(form, ev, emailOk), emailOk)
    ensures var form' := Step(form, ev, emailOk);
            form'.message != form.message ==>
              (ev == Press && form.phase.Idle? && form'.message == "")
              || (ev.DelayElapsed? && form.phase.Submitting?
                  && (form'.message == LoginSuccess || form'.message == AccountNotFound))
  {
  }

  /** Typing while a submission is in flight. */
  function ApplyEdits(form: LoginForm, edits: seq<(Field, string)>): LoginForm
    decreases |edits|
  {
    if edits == [] then form
    else ApplyEdits(Edit(form, edits[0].0, edits[0].1), edits[1..])
  }

  /** Edits keep the phase, the in-flight values, the errors and the banner. */
  lemma {:induction false} EditsKeepSubmission(form: LoginForm, edits: seq<(Field, string)>)
    ensures ApplyEdits(form, edits).phase == form.phase
    ensures ApplyEdits(form, edits).message == form.message
    ensures ApplyEdits(form, edits).errors == form.errors
    decreases |edits|
  {
    if edits != [] {
      EditsKeepSubmission(Edit(form, edits[0].0, edits[0].1), edits[1..]);
    }
  }

  /** A valid submission from an idle form, start to finish, with any typing
      during the delay: the banner is cleared when the submission starts and
      set once when the delay elapses, to the success message in green exactly
      when the submitted address belongs to an account and to the not-found
      message in red otherwise; the password ends empty. */
  lemma ValidSubmission(form: LoginForm, emailOk: EmailCheck, edits: seq<(Field, string)>, resetEmail: string)
    requires form.phase.Idle? && Valid(form.values, emailOk)
    ensures var mid := ApplyEdits(Step(form, Press, emailOk), edits);
            mid.message == "" && mid.phase == Submitting(form.values)
            && var done := Step(mid, DelayElapsed(resetEmail), emailOk);
               && (done.message == LoginSuccess <==> IsExisting(form.values.email))
               && (done.message == AccountNotFound <==> !IsExisting(form.values.email))
               && (Banner(done.message) == Some(Green) <==> IsExisting(form.values.email))
               && (Banner(done.message) == Some(Red) <==> !IsExisting(form.values.email))
               && done.values.password == "" && done.phase.Idle?
  {
    var started := Step(form, Press, emailOk);
    EditsKeepSubmission(started, edits);
    BannerFollowsOutcome(Decide(form.values.email));
  }

  /** A submission that fails validation leaves the values, the banner and
      the phase as they were and only shows the errors. */
  lemma RejectedSubmission(form: LoginForm, emailOk: EmailCheck)
    requires form.phase.Idle? && !Valid(form.values, emailOk)
    ensures var form' := Step(form, Press, emailOk);
            form'.values == form.values && form'.message == form.message
            && form'.phase.Idle? && form'.errors == Validate(form.values, emailOk) != map[]
  {
  }

  /** A seeded account with a six-character password passes validation and
      logs in; a new well-formed address passes validation too and is
      reported as not found. */
  lemma SeededAndFreshAccounts(emailOk: EmailCheck, newEmail: string, resetEmail: string)
    requires newEmail != "" && emailOk(newEmail) && !IsExisting(newEmail)
    ensures Validate(LoginRecord("demo@wavora.com", "abcdef"), emailOk) == map[]
    ensures Validate(LoginRecord(newEmail, "abcdef"), emailOk) == map[]
    ensures Settle(LoginForm(LoginRecord("demo@wavora.com", "abcdef"), map[], "", Submitting(LoginRecord("demo@wavora.com", "abcdef"))), resetEmail).message == LoginSuccess
    ensures Settle(LoginForm(LoginRecord(newEmail, "abcdef"), map[], "", Submitting(LoginRecord(newEmail, "abcdef"))), resetEmail).message == AccountNotFound
  {
    ExistingIsWellShaped(emailOk, "demo@wavora.com");
    assert Utf16Length("abcdef") == 6;
  }
}

=== FILE: register.dfy ===
/** The signup form: a four-field schema whose e-mail rule also rejects
    existing accounts, a cross-field rule that the two passwords agree, and a
    submission that always succeeds once the schema passes and then clears the
    whole form. */
module Register {
  import opened Text
  import opened FieldErrors
  import opened AuthCommon
  import opened Wrappers

  datatype SignupRecord = SignupRecord(name: string, email: string, password: string, confirmPassword: string)

  const Blank := SignupRecord("", "", "", "")

  datatype Field = Name | Email | Password | ConfirmPassword

  /** The key under which a field's error is reported. */
  function Key(f: Field): string {
    match f
    case Name => "name"
    case Email => "email"
    case Password => "password"
    case ConfirmPassword => "confirmPassword"
  }

  const FieldKeys: set<string> := {Key(Name), Key(Email), Key(Password), Key(ConfirmPassword)}

  function Get(r: SignupRecord, f: Field): string {
    match f
    case Name => r.name
    case Email => r.email
    case Password => r.password
    case ConfirmPassword => r.confirmPassword
  }

  /** Typing `value` into field `f`. */
  function Set(r: SignupRecord, f: Field, value: string): (r': SignupRecord)
    ensures Get(r', f) == value
    ensures forall g :: g != f ==> Get(r', g) == Get(r, g)
  {
    match f
    case Name => r.(name := value)
    case Email => r.(email := value)
    case Password => r.(password := value)
    case ConfirmPassword => r.(confirmPassword := value)
  }

  const NameRequired := "Name is required"
  const EmailRequired := "Email is required"
  const InvalidEmail := "Invalid email"
  const EmailTaken := "Email already exists. Please login."
  const PasswordTooShort := "Password must be at least 6 characters"
  const ConfirmRequired := "Please confirm your password"
  const PasswordsDiffer := "Passwords do not match"
  const SignupSuccess := "\U{2705} Signup successful! Redirecting..."

  function NameIssues(r: SignupRecord): seq<Issue> {
    Check(Utf16Length(r.name) < 3, "name", NameRequired)
  }

  /** Presence, then shape, then the account must not exist yet. */
  function EmailIssues(r: SignupRecord, emailOk: EmailCheck): seq<Issue> {
    Check(Utf16Length(r.email) < 1, "email", EmailRequired)
    + Check(!emailOk(r.email), "email", InvalidEmail)
    + Check(IsExisting(r.email), "email", EmailTaken)
  }

  function PasswordIssues(r: SignupRecord): seq<Issue> {
    Check(Utf16Length(r.password) < 6, "password", PasswordTooShort)
  }

  /** The field's own presence rule, then the whole-record rule that the two
      passwords agree, whose issue is reported on `confirmPassword`. */
  function ConfirmIssues(r: SignupRecord): seq<Issue> {
    Check(Utf16Length(r.confirmPassword) < 1, "confirmPassword", ConfirmRequired)
    + Check(r.password != r.confirmPassword, "confirmPassword", PasswordsDiffer)
  }

  /** The issues the signup schema reports, in declaration order. */
  function SchemaIssues(r: SignupRecord, emailOk: EmailCheck): seq<Issue> {
    NameIssues(r) + EmailIssues(r, emailOk) + PasswordIssues(r) + ConfirmIssues(r)
  }

  /** The record passes every rule of the signup schema. */
  predicate Valid(r: SignupRecord, emailOk: EmailCheck) {
    && Utf16Length(r.name) >= 3
    && r.email != "" && emailOk(r.email) && !IsExisting(r.email)
    && Utf16Length(r.password) >= 6
    && r.confirmPassword != ""
    && r.password == r.confirmPassword
  }

  /** The error each field shows: its rules in declaration order, the first
      failing one wins. */
  function NameError(r: SignupRecord): ErrorMap {
    if Utf16Length(r.name) < 3 then map["name" := NameRequired] else map[]
  }

  function EmailError(r: SignupRecord, emailOk: EmailCheck): ErrorMap {
    if r.email == "" then map["email" := EmailRequired]
    else if !emailOk(r.email) then map["email" := InvalidEmail]
    else if IsExisting(r.email) then map["email" := EmailTaken]
    else map[]
  }

  function PasswordError(r: SignupRecord): ErrorMap {
    if Utf16Length(r.password) < 6 then map["password" := PasswordTooShort] else map[]
  }

  function ConfirmError(r: SignupRecord): ErrorMap {
    if r.confirmPassword == "" then map["confirmPassword" := ConfirmRequired]
    else if r.password != r.confirmPassword then map["confirmPassword" := PasswordsDiffer]
    else map[]
  }

  /** The errors the form shows after validating `r`: every field with a
      failing rule, each with its first failing rule's message. */
  function Validate(r: SignupRecord, emailOk: EmailCheck): ErrorMap {
    NameError(r) + EmailError(r, emailOk) + PasswordError(r) + ConfirmError(r)
  }

  /** The per-field reading is what the schema's issue list resolves to when
      the form keeps the first issue per field. */
  lemma ValidateResolvesSchema(r: SignupRecord, emailOk: EmailCheck)
    ensures Validate(r, emailOk) == Resolve(SchemaIssues(r, emailOk))
  {
    NameCascade(r);
    EmailCascade(r, emailOk);
    PasswordCascade(r);
    ConfirmCascade(r);
    ResolveDisjoint4(NameIssues(r), EmailIssues(r, emailOk), PasswordIssues(r), ConfirmIssues(r));
  }

  lemma NameCascade(r: SignupRecord)
    ensures Resolve(NameIssues(r)) == NameError(r)
  {
    ResolveCheck(Utf16Length(r.name) < 3, "name", NameRequired);
  }

  lemma EmailCascade(r: SignupRecord, emailOk: EmailCheck)
    ensures Resolve(EmailIssues(r, emailOk)) == EmailError(r, emailOk)
  {
    ResolveChecks3(Utf16Length(r.email) < 1, !emailOk(r.email), IsExisting(r.email),
                   "email", EmailRequired, InvalidEmail, EmailTaken);
  }

  lemma PasswordCascade(r: SignupRecord)
    ensures Resolve(PasswordIssues(r)) == PasswordError(r)
  {
    ResolveCheck(Utf16Length(r.password) < 6, "password", PasswordTooShort);
  }

  lemma ConfirmCascade(r: SignupRecord)
    ensures Resolve(ConfirmIssues(r)) == ConfirmError(r)
  {
    ResolveChecks2(Utf16Length(r.confirmPassword) < 1, r.password != r.confirmPassword,
                   "confirmPassword", ConfirmRequired, PasswordsDiffer);
  }

  /** A name shorter than three characters is reported, and only then. */
  lemma NameRule(r: SignupRecord, emailOk: EmailCheck)
    ensures "name" in Validate(r, emailOk) <==> Utf16Length(r.name) < 3
    ensures "name" in Validate(r, emailOk) ==> Validate(r, emailOk)["name"] == NameRequired
  {
  }

  /** The e-mail rules in priority order: presence, then shape, then that
      the account does not exist yet. */
  lemma EmailRule(r: SignupRecord, emailOk: EmailCheck)
    ensures r.email == "" ==> Shows(Validate(r, emailOk), "email", EmailRequired)
    ensures r.email != "" && !emailOk(r.email) ==> Shows(Validate(r, emailOk), "email", InvalidEmail)
    ensures r.email != "" && emailOk(r.email) && IsExisting(r.email) ==> Shows(Validate(r, emailOk), "email", EmailTaken)
    ensures "email" !in Validate(r, emailOk) <==> r.email != "" && emailOk(r.email) && !IsExisting(r.email)
  {
  }

  /** A password shorter than six characters is reported, and only then. */
  lemma PasswordRule(r: SignupRecord, emailOk: EmailCheck)
    ensures "password" in Validate(r, emailOk) <==> Utf16Length(r.password) < 6
    ensures "password" in Validate(r, emailOk) ==> Validate(r, emailOk)["password"] == PasswordTooShort
  {
  }

  /** An empty confirmation is reported as missing; a non-empty one that
      differs from the password as a mismatch, on the confirmation field. */
  lemma ConfirmRule(r: SignupRecord, emailOk: EmailCheck)
    ensures r.confirmPassword == "" ==> Shows(Validate(r, emailOk), "confirmPassword", ConfirmRequired)
    ensures r.confirmPassword != "" && r.password != r.confirmPassword ==> Shows(Validate(r, emailOk), "confirmPassword", PasswordsDiffer)
    ensures "confirmPassword" !in Validate(r, emailOk) <==> r.confirmPassword != "" && r.password == r.confirmPassword
  {
  }

  /** Only the four fields ever carry errors, and there are none exactly when
      every rule passes. */
  lemma ValidateEmptyIffValid(r: SignupRecord, emailOk: EmailCheck)
    ensures Validate(r, emailOk).Keys <= FieldKeys
    ensures Validate(r, emailOk) == map[] <==> Valid(r, emailOk)
  {
    var errs := Validate(r, emailOk);
    if !Valid(r, emailOk) {
      if Utf16Length(r.name) < 3 {
        assert "name" in errs;
      } else if !(r.email != "" && emailOk(r.email) && !IsExisting(r.email)) {
        assert "email" in errs;
      } else if Utf16Length(r.password) < 6 {
        assert "password" in errs;
      } else {
        assert "confirmPassword" in errs;
      }
    }
  }

  /** The password-mismatch message is only ever reported on
      `confirmPassword`, never on `password`. */
  lemma MismatchOnlyOnConfirm(r: SignupRecord, emailOk: EmailCheck, key: string)
    requires Shows(Validate(r, emailOk), key, PasswordsDiffer)
    ensures key == "confirmPassword"
    ensures r.password != r.confirmPassword
  {
  }

  /** When every field's own rules pass but the passwords differ, the only
      error is the mismatch, on `confirmPassword`. */
  lemma OnlyMismatch(r: SignupRecord, emailOk: EmailCheck)
    requires Utf16Length(r.name) >= 3
    requires r.email != "" && emailOk(r.email) && !IsExisting(r.email)
    requires Utf16Length(r.password) >= 6 && r.confirmPassword != ""
    requires r.password != r.confirmPassword
    ensures Validate(r, emailOk) == map["confirmPassword" := PasswordsDiffer]
  {
    var errs := Validate(r, emailOk);
    assert errs.Keys == {"confirmPassword"};
  }

  /** Rules on different fields do not hide one another: a short name and a
      taken address are both reported. */
  lemma ShortNameAndTakenEmail(emailOk: EmailCheck)
    ensures var errs := Validate(SignupRecord("Al", "test@example.com", "secret1", "secret1"), emailOk);
            Shows(errs, "name", NameRequired) && Shows(errs, "email", EmailTaken)
            && "password" !in errs && "confirmPassword" !in errs
  {
    assert Utf16Length("Al") == 2;
    assert Utf16Length("secret1") == 7;
    ExistingIsWellShaped(emailOk, "test@example.com");
  }

  /** The signup form's state: the field values, the errors on show, the
      success banner's text and the submission phase. */
  datatype SignupForm = SignupForm(values: SignupRecord, errors: ErrorMap, message: string, phase: Phase<SignupRecord>)

  const Initial := SignupForm(Blank, map[], "", Idle)

  /** What can happen to the form: the user types into a field, presses the
      submit button, or the simulated network delay elapses. */
  datatype Event = Type(field: Field, value: string) | Press | DelayElapsed

  /** The user types into a field; nothing but that field's value changes. */
  function Edit(form: SignupForm, f: Field, value: string): (form': SignupForm)
    ensures Get(form'.values, f) == value
    ensures forall g :: g != f ==> Get(form'.values, g) == Get(form.values, g)
    ensures form'.errors == form.errors && form'.message == form.message && form'.phase == form.phase
  {
    form.(values := Set(form.values, f, value))
  }

  /** Pressing submit. The button is disabled while a submission is in flight.
      Otherwise the record is validated: with errors, they are shown and
      nothing else changes; without, the banner is cleared and the submission
      goes in flight with the current values. */
  function Submit(form: SignupForm, emailOk: EmailCheck): (form': SignupForm)
    ensures form.phase.Submitting? ==> form' == form
    ensures form.phase.Idle? && !Valid(form.values, emailOk) ==>
              form'.errors == Validate(form.values, emailOk) != map[] && form'.phase.Idle?
              && form'.values == form.values && form'.message == form.message
    ensures form.phase.Idle? && Valid(form.values, emailOk) ==>
              form'.errors == map[] && form'.message == ""
              && form'.phase == Submitting(form.values) && form'.values == form.values
  {
    if form.phase.Submitting? then form
    else
      ValidateEmptyIffValid(form.values, emailOk);
      var errs := Validate(form.values, emailOk);
      if errs != map[] then form.(errors := errs)
      else form.(errors := map[], message := "", phase := Submitting(form.values))
  }

  /** The delay elapses: the submission succeeds whatever was submitted, the
      success banner is set and every field is cleared. */
  function Settle(form: SignupForm): (form': SignupForm)
    requires form.phase.Submitting?
    ensures form'.phase.Idle? && form'.errors == map[]
    ensures form'.message == SignupSuccess
    ensures forall f :: Get(form'.values, f) == ""
  {
    SignupForm(Blank, map[], SignupSuccess, Idle)
  }

  function Step(form: SignupForm, ev: Event, emailOk: EmailCheck): SignupForm {
    match ev
    case Type(f, v) => Edit(form, f, v)
    case Press => Submit(form, emailOk)
    case DelayElapsed => if form.phase.Submitting? then Settle(form) else form
  }

  /** The success banner: shown whenever there is a message, always green. */
  function Banner(message: string): Option<Colour> {
    if message == "" then None else Some(Green)
  }

  /** While a submission is in flight no banner and no error is on show, and
      the values it carries pass the schema. */
  predicate Inv(form: SignupForm, emailOk: EmailCheck) {
    form.phase.Submitting? ==>
      form.message == "" && form.errors == map[] && Valid(form.phase.data, emailOk)
  }

  lemma InitialInv(emailOk: EmailCheck)
    ensures Inv(Initial, emailOk)
    ensures Initial.phase.Idle? && Banner(Initial.message).None?
  {
  }

  /** Every step keeps the invariant. The banner text changes only when a
      valid submission starts (it is cleared) or when its delay elapses (it
      becomes the success message). */
  lemma StepKeepsInv(form: SignupForm, ev: Event, emailOk: EmailCheck)
    requires Inv(form, emailOk)
    ensures Inv(Step(form, ev, emailOk), emailOk)
    ensures var form' := Step(form, ev, emailOk);
            form'.message != form.message ==>
              (ev == Press && form.phase.Idle? && form'.message == "")
              || (ev == DelayElapsed && form.phase.Submitting? && form'.message == SignupSuccess)
  {
  }

  /** A submission that fails validation leaves the values, the banner and
      the phase as they were and only shows the schema's errors: the
      success path is never reached. */
  lemma RejectedSubmission(form: SignupForm, emailOk: EmailCheck)
    requires form.phase.Idle? && !Valid(form.values, emailOk)
    ensures var form' := Step(form, Press, emailOk);
            form'.values == form.values && form'.message == form.message
            && form'.phase.Idle? && form'.errors == Validate(form.values, emailOk) != map[]
  {
  }

  /** A valid submission from an idle form, start to finish: the banner is
      cleared, the submission goes in flight, and after the delay the banner
      reads the success message in green with every field cleared. There is
      no failure branch after validation. */
  lemma ValidSubmissionSucceeds(form: SignupForm, emailOk: EmailCheck)
    requires form.phase.Idle? && Valid(form.values, emailOk)
    ensures var mid := Step(form, Press, emailOk);
            mid.message == "" && mid.phase == Submitting(form.values)
            && var done := Step(mid, DelayElapsed, emailOk);
               done.message == SignupSuccess && Banner(done.message) == Some(Green)
               && done.values == Blank && done.phase.Idle?
  {
  }
}

=== FILE: text.dfy ===
/** The few JavaScript string operations the forms and the FAQ filter rely on:
    `length` (UTF-16 code units), `toLowerCase` (ASCII letters only here),
    `includes` and `startsWith`. */
module Text {

  /** The number of UTF-16 code units JavaScript's `length` reports for `s`:
      a character outside the Basic Multilingual Plane takes two. zod's
      `.min(n)` string check compares this number with `n`. */
  function Utf16Length(s: string): (n: nat)
    ensures |s| <= n <= 2 * |s|
    ensures (forall i :: 0 <= i < |s| ==> s[i] as int <= 0xFFFF) ==> n == |s|
    ensures n == 0 <==> s == ""
  {
    if s == [] then 0
    else (if s[0] as int > 0xFFFF then 2 else 1) + Utf16Length(s[1..])
  }

  predicate IsUpper(c: char) {
    'A' <= c <= 'Z'
  }

  /** ASCII case folding of one character. */
  function LowerChar(c: char): (d: char)
    ensures !IsUpper(d)
    ensures !IsUpper(c) ==> d == c
    ensures IsUpper(c) ==> 'a' <= d <= 'z' && d as int - c as int == 'a' as int - 'A' as int
  {
    if IsUpper(c) then (c as int - 'A' as int + 'a' as int) as char else c
  }

  /** `s.toLowerCase()`, restricted to the ASCII letters. */
  function Lower(s: string): (t: string)
    ensures |t| == |s|
    ensures forall i :: 0 <= i < |s| ==> t[i] == LowerChar(s[i])
  {
    seq(|s|, i requires 0 <= i < |s| => LowerChar(s[i]))
  }

  /** `t` occurs in `s` starting at position `i`. */
  predicate OccursAt(s: string, t: string, i: nat) {
    i + |t| <= |s| && s[i..i + |t|] == t
  }

  /** `s.includes(t)`: some slice of `s` equals `t`. */
  function Includes(s: string, t: string): (b: bool)
    ensures b <==> exists i: nat :: OccursAt(s, t, i)
    decreases |s|
  {
    if |t| > |s| then false
    else if s[..|t|] == t then (assert OccursAt(s, t, 0); true)
    else (IncludesShift(s, t); Includes(s[1..], t))
  }

  /** A proper occurrence of `t` in a non-empty `s` that is not at position 0
      is an occurrence in `s[1..]`, one position to the left, and conversely. */
  lemma IncludesShift(s: string, t: string)
    requires |t| <= |s| && s[..|t|] != t
    ensures (exists i: nat :: OccursAt(s, t, i)) <==> (exists i: nat :: OccursAt(s[1..], t, i))
  {
    if i: nat :| OccursAt(s, t, i) {
      assert i != 0;
      assert s[1..][i - 1..i - 1 + |t|] == s[i..i + |t|];
      assert OccursAt(s[1..], t, i - 1);
    }
    if i: nat :| OccursAt(s[1..], t, i) {
      assert s[1..][i..i + |t|] == s[i + 1..i + 1 + |t|];
      assert OccursAt(s, t, i + 1);
    }
  }

  /** Every string includes the empty string. */
  lemma IncludesEmpty(s: string)
    ensures Includes(s, "")
  {
    assert OccursAt(s, "", 0);
  }

  /** `s.startsWith(p)`. */
  predicate StartsWith(s: string, p: string) {
    |p| <= |s| && s[..|p|] == p
  }
}

=== FILE: wrappers.dfy ===
/** An optional value: JavaScript's `null` or a value. */
module Wrappers {
  datatype Option<T> = None | Some(value: T)
}
